=== FILE: README.md ===
# niri-float-sticky: the decision engine, in Dafny

niri-float-sticky is a daemon for the niri Wayland compositor. It keeps
floating windows "stuck" to the active workspace of their monitor. The
compositor reports events: workspaces activated, workspaces or windows
changed, windows opened, changed or closed. A control socket also delivers
`set_sticky` / `unset_sticky` / `toggle_sticky` commands for the focused
window.

This project models the part of the daemon that makes decisions. It does no
I/O:

- **`Windows`** (`windows_manager.dfy`) models the `WindowsManager`. It holds
  the set of floating windows and the map of manual overrides. It decides each
  window's effective stickiness: the override wins, otherwise a floating
  window is sticky. It also decides which windows follow a workspace switch:
  floating windows that are sticky.
- **`Daemon`** (`daemon.dfy`) models the body of the event loop as a pure
  `Step` over an immutable `State`. The state is the manager plus the
  workspace→output table (`workspacesMonitorMap`) and the window→output
  table (`windowsMonitorMap`). A `WorkspaceActivated` event yields the set of
  moves to request. `Run` folds `Step` over a sequence of inputs, handled one
  at a time in order. Go map reads of a missing key give `""` (`Tables.Read`).
  The method `ActivateWorkspace` adds the compositor's answer to each move as
  a parameter. It shows that a refused or failed move does not stop the
  others.
- **`Commands`** (`commands.dfy`) models the three action names and the
  client's `sendCommand`. It rejects any other name before looking up the
  focused window or dialing the daemon.
- **`Patterns`** (`patterns.dfy`) models `CombinePatterns`, which joins the
  `-app-id` / `-title` fragments with `|`. The regex engine stays abstract:
  it is an `Engine` parameter that decides whether one alternative matches a
  string. What is modelled is the top level of a pattern: the `|` characters
  that are not escaped and not inside a group or a bracket class. A pattern
  matches when one of its top-level alternatives does. An empty alternative
  matches every string. This reading holds for patterns that set no flag at
  top level: a flag group such as `(?i)` reaches past every later `|`
  (`Patterns.Separable`).
- **`Scenarios`** (`scenarios.dfy`) holds concrete runs:
  - the workspace-follow scenario in both event orders;
  - the documented pattern cases;
  - a small literal-and-anchor matcher that decides the anchor test strings.

Three behaviours of the code are worth knowing, because they are not what
one might first expect:

- **`SetManual`.** `SetManual` compares the wish with the effective
  `IsSticky(id)`, override included (windows/windows-manager.go:43-46). It
  writes no override only when the wish is already in effect, so an opposite
  override is always overwritten and the request always takes effect.
- **Stale window bindings.** `WorkspacesChanged` rebuilds only the workspace
  table (main.go:122-128). A window reported before its workspace is bound
  to `""` and keeps that binding until a `WindowsChanged`, or a
  `WindowOpenedOrChanged` that finds it eligible (main.go:132-137, 147-149).
  A `WindowClosed`, or a `WindowOpenedOrChanged` for a window that is tiled or
  filtered out, leaves the stale binding in place. When
  foreign monitors are disallowed, activating a workspace on that window's
  output then requests no move (`Scenarios.StaleBindingScenario`). With the
  topology reported first, the move is requested
  (`Scenarios.WorkspaceFollowScenario`).
- **`-disable-auto-stick`.** main.go:98 passes `autoStickEnabled` to
  `NewWindowsManager`, but the constructor in windows/windows-manager.go:8
  takes no argument. The manager is modelled as written there. The flag has
  no modelled effect.

## Model

| member | source | states |
|---|---|---|
| `Windows.IsSticky` | windows/windows-manager.go:26-32 | the reference for effective stickiness: a window neither floating nor overridden is not sticky; a sticky window is floating or carries a `true` override; a floating window without a `false` override is sticky |
| `Tables.Read` | main.go:112 | reading a Go `map[uint64]string`: a missing key reads as `""`, a present key as its value, and a non-empty read implies the key is present |
| `Windows.New` | windows/windows-manager.go:8-13 | a fresh manager has no floating window and no override, so it reports no window as sticky and `GetSticky` is empty |
| `Windows.GetSticky` | windows/windows-manager.go:15-24 | the result is exactly the floating windows whose effective stickiness is true (no override, or an override of `true`); it is a subset of the floating set, so a window sticky only by override is never returned; as a set it has no duplicates |
| `Windows.OverrideWins` | windows/windows-manager.go:26-29 | when an override exists, `IsSticky` is the override's value whatever the floating set is |
| `Windows.FloatingDecidesWithoutOverride` | windows/windows-manager.go:30-31 | without an override, `IsSticky` is floating membership, and agrees with membership in `GetSticky` |
| `Windows.SetFloating` | windows/windows-manager.go:34-36 | the window becomes floating; the override map is unchanged; its stickiness becomes its override or `true`; every other window keeps its floating flag and stickiness |
| `Windows.SetFloatingIdempotent` | windows/windows-manager.go:34-36 | marking a window floating twice is the same as once |
| `Windows.ResetFloating` | windows/windows-manager.go:38-40 | the floating set is emptied; every override is kept; `GetSticky` is empty; a window is sticky exactly when it has a `true` override |
| `Windows.ResetThenSetFloatingRestores` | windows/windows-manager.go:34-40 | after a reset, marking a previously floating window floating again restores its former stickiness and `GetSticky` membership, because its override survived |
| `Windows.SetManual` | windows/windows-manager.go:42-48 | afterwards `IsSticky(id)` is the wished value; when the wish differs from `IsSticky(id)` an override holding the wish is recorded for the window; when it already equals `IsSticky(id)` the manager is unchanged; the floating set is unchanged; no other window's override or stickiness changes |
| `Windows.ManualWishSurvivesReset` | windows/windows-manager.go:38-47 | a manual wish that changed a window's stickiness is still in effect after `ResetFloating`, and after the window is marked floating again |
| `Windows.SetManualIdempotent` | windows/windows-manager.go:42-48 | asking for the same stickiness twice has the effect of asking once |
| `Windows.Remove` | windows/windows-manager.go:50-53 | the window loses both its floating flag and its override, so it is not sticky and not in `GetSticky`, whatever the prior state; every other window's stickiness, floating flag, override and `GetSticky` membership are unchanged |
| `Windows.RemoveForgets` | windows/windows-manager.go:50-53 | after removal the window behaves as in a fresh manager: not sticky, sticky once marked floating, and any manual wish takes effect |
| `Commands.ParseAction` | main.go:21-27 | a name is recognised exactly when it is the wire name of one of the three actions, and then it is that action's name |
| `Commands.ParseActionName` | main.go:159-166 | every action's wire name parses back to that action |
| `Commands.SendCommand` | main.go:20-47 | an unknown action name is rejected with `InvalidCommand`, whatever the focused-window lookup or the socket would do; a valid name with no focused window fails with `NoFocusedWindow`; the command is sent exactly when the name is valid, a focused window exists and the write succeeds, and it carries that name and window |
| `Patterns.Combine` | utils/combine-patterns.go:9-10 | the joined pattern starts with the first fragment, and no fragment at all gives the empty pattern |
| `Patterns.CombineSnoc` | utils/combine-patterns.go:10 | adding a fragment at the end of the list adds exactly one separator and that fragment to the joined pattern |
| `Patterns.AnyBranch` | main.go:135 | trying alternatives left to right succeeds exactly when some alternative matches, an empty one matching every string |
| `Patterns.Matches` | main.go:135 | `MatchString` on a pattern without top-level flag groups: true exactly when some top-level alternative matches; the empty pattern matches every string |
| `Patterns.AlternativesOfCombine` | utils/combine-patterns.go:9-12 | for balanced fragments, the top-level alternatives of the joined pattern are all alternatives of the fragments, in order; a fragment that itself holds several top-level alternatives contributes them all |
| `Patterns.CombineAlternatives` | utils/combine-patterns.go:10 | every pattern is the join, with the separator character, of its own top-level alternatives, so the join adds only separators: no escaping and no grouping |
| `Patterns.CombinedMatches` | utils/combine-patterns.go:9-12 | for separable fragments (balanced, no top-level flag group), the combined pattern matches `s` iff the list is empty or some fragment matches `s` |
| `Patterns.EmptyCombinationMatchesEverything` | utils/combine-patterns_test.go:56-67 | an empty list joins to the empty pattern, which matches every string, `""` included |
| `Daemon.Eligible` | main.go:135 | an eligible window is floating and sits on a workspace; with no filters at all, every floating window on a workspace is eligible |
| `Daemon.EligibleMeansBothFiltersAccept` | main.go:135 | a window is eligible iff it is floating, has a workspace, and both the app-id and the title filter lists accept it (OR within a list, AND between the two lists) |
| `Daemon.OnWorkspaceActivated` | main.go:109-121 | a move of window `w` to the activated workspace is requested iff `w` is floating and sticky and either foreign monitors are allowed or `w`'s recorded output equals the workspace's (a missing entry reads as `""`); no other move is requested |
| `Daemon.ActivateWorkspace` | main.go:111-121 | the moves attempted are exactly those `OnWorkspaceActivated` requests, each once; the windows skipped are exactly the sticky windows on a foreign monitor; the failures are exactly the attempted moves the compositor refused, so a failure does not stop the remaining moves |
| `Daemon.OnWorkspacesChanged` | main.go:122-128 | the workspace table is replaced by one holding exactly the listed workspaces, each bound to the output of its last entry in the list; the manager and window table are unchanged |
| `Tables.LastWins` | main.go:124-127 | assigning pairs into a fresh Go map in order gives a map whose keys are exactly the listed keys |
| `Tables.LastWinsValue` | main.go:124-127 | in that map each key holds the value of its last pair: a later duplicate wins |
| `Daemon.FloatSelected` | main.go:134-136 | marking the selected windows floating one by one adds exactly the selected ids to the floating set and touches no override |
| `Daemon.BindSelected` | main.go:132-137 | the window table built in the loop has exactly the selected windows as keys |
| `Daemon.BindSelectedLastWins` | main.go:134-141 | a selected window is bound to the output of the workspace of its last selected entry, `""` when that workspace is unknown |
| `Daemon.OnWindowsChanged` | main.go:129-141 | the floating set becomes exactly the eligible windows of the list; the window table has exactly those windows as keys, each bound to the workspace output of its last eligible entry; overrides and the workspace table are unchanged; `GetSticky` becomes the eligible windows without a `false` override |
| `Daemon.OnWindowClosed` | main.go:142-144 | the closed window is no longer floating, sticky, in `GetSticky` or overridden; both tables are unchanged; every other window keeps its stickiness, `GetSticky` membership, floating flag and override |
| `Daemon.OnWindowOpenedOrChanged` | main.go:145-155 | an eligible window becomes floating, keeps its override, and is rebound to its workspace's output; a window that is not floating loses its floating flag and override and the window table is unchanged; a floating but ineligible window leaves the state unchanged; every other window keeps its stickiness, floating flag, override and window-table entry; the workspace table never changes |
| `Daemon.OnCommand` | main.go:157-168 | `set_sticky` leaves the window sticky; `unset_sticky` leaves it not sticky; `toggle_sticky` leaves it the negation of its stickiness read before the write; a command that changes the window's stickiness records an override holding the new value; a command that leaves its stickiness as it was leaves the manager unchanged, and so does an unknown action; the floating set is unchanged; every other window keeps its stickiness and override |
| `Daemon.ToggleTwice` | main.go:158-165 | two `toggle_sticky` commands restore the original stickiness |
| `Daemon.SentCommandsTakeEffect` | main.go:157-168 | every command the client lets through is acted on by the daemon: the window's stickiness afterwards is what the action asked for |
| `Daemon.Step` | main.go:105-168 | only a workspace activation requests moves, and it changes no state; a control command changes neither table nor the floating set; every step keeps each floating window bound in the window table |
| `Daemon.Run` | main.go:105-173 | inputs are processed one at a time in order, one set of moves per input; only activations request moves; every floating window stays bound in the window table |
| `Daemon.RunCons` | main.go:105-108 | `Run` handles its first input with `Step` and continues from the state that step leaves, so inputs are processed one at a time in order |
| `Daemon.InitIsEmpty` | main.go:92-98 | at startup no window is sticky, `GetSticky` is empty, and every floating window is bound in the window table (trivially, as none is floating) |
| `Scenarios.WorkspaceFollowScenario` | main.go:109-141 | with the topology known first, a floating window on workspace 10 follows to workspace 20 on the same output and is not moved to workspace 30 on another output |
| `Scenarios.StaleBindingScenario` | main.go:122-137 | a window reported before its workspace is bound to `""`; the following `WorkspacesChanged` does not rebind it, and activating a workspace on its output requests no move |
| `Scenarios.ForeignMonitorsAllowedScenario` | main.go:112 | with foreign monitors allowed, the move to a workspace on another output is requested |
| `Scenarios.AlternativesAreNotIsolated` | utils/combine-patterns_test.go:79-100 | the fragment with alternatives `foo` and `bar`, joined with `baz`, gives the three alternatives `foo`, `bar`, `baz`, and the result matches iff one of them does |
| `Scenarios.AnchorsBindToTheirAlternative` | utils/combine-patterns_test.go:146-173 | in the fragment with alternatives `^foo` and `bar$`, joined with `baz`, the anchor `^` belongs to `foo` and `$` to `bar` only |
| `Scenarios.AnchorsWithLiteralBranches` | utils/combine-patterns_test.go:146-173 | with a literal-and-anchor matcher, that pattern matches `xxbar` and does not match `xxbarxx` |
| `Scenarios.TopLevelFlagGroupIsNotSeparable` | utils/combine-patterns.go:10 | the fragment `(?i)foo` is not separable: its flag would reach the fragments joined after it |
| `Scenarios.ScopedFlagGroupIsSeparable` | utils/combine-patterns.go:10 | the scoped flag group `(?i:a)` ends with its group, so the fragment is separable |
| `Scenarios.NestedFlagGroupIsSeparable` | utils/combine-patterns.go:10 | a flag group inside a group, as in `(a(?i)b)`, ends with that group, so the fragment is separable |
| `Scenarios.GroupsStayWhole` | utils/combine-patterns.go:10 | a separator inside a group does not split alternatives: the fragment made of a group with an inner separator between `a` and `b`, followed by `c`, joined with `d` gives two alternatives: that whole fragment and `d` |

## Left out

- The control socket (ipc/ipc.go, ipc/client.go) is left out: listening, accepting, one goroutine per connection, the 512-byte bounded JSON decode, and socket-file removal. A decoded command enters the model as a `FromControl` input.
- The compositor connection (niri-socket/socket.go) is left out: connection pooling, dialing `NIRI_SOCKET`, and streaming JSON decode. Decoded events enter the model as `FromCompositor` inputs.
- The repeatable command-line flag adapter (array-flag/array-flag.go) is left out. The fragment lists enter the model through `Config`.
- The regex engine behind `regexp.MustCompile` / `MatchString` is a parameter. The panic of `MustCompile` on an invalid pattern is left out: the model has no notion of an invalid pattern.
- The top-level scanner in `Patterns` knows backslash escapes, parentheses and bracket classes. It does not know Go's finer rules: a `]` right after `[` or `[^`, `\Q…\E` quoting, and nested POSIX classes.
- `Patterns.CombinedMatches`: stated only for fragments that close every group, class and escape they open (`Balanced`). An unbalanced fragment can merge with its neighbour, for example `(a` with `b)`, which join to the valid `(a|b)`. `MustCompile` compiles only the joined pattern, so an unbalanced fragment makes it panic unless a neighbouring fragment closes what it opens.
- `Patterns.CombinedMatches`: not stated for fragments that set a flag at top level, such as `(?i)foo` or `(?-s)x`. In Go such a flag stays in force to the end of the combined pattern, past every later `|`, so `(?i)foo` joined with `bar` also matches `BAR`, which neither fragment matches alone. `Separable` excludes these fragments. The model does not describe what Go matches for them.
- `Patterns.Matches`: describes `MatchString` for patterns without a top-level flag group. For a pattern with one, the alternatives after the flag are judged under the flag, which the model does not describe.
- `Daemon.EligibleMeansBothFiltersAccept`: stated under the same conditions on every filter fragment (`WellFormedFilters`): balanced, and no top-level flag group.
- `niriwindows.GetFocusedWindow` and `MoveWindowToWorkspace` are parameters. Their packages are not part of this model. The focused-window lookup's result is `focused` in `SendCommand`. The compositor's answer to each move is `gateway` in `ActivateWorkspace`.
- The order of `GetSticky`'s result and of the moves is unspecified, because it comes from Go map iteration. Both are modelled as sets. `ActivateWorkspace` visits the windows in an arbitrary order.
- Signal handling and the shutdown branch of the loop (main.go:169-171) are left out. So are the `select` multiplexing, logging, and the `-version` and `-debug` flags. The loop is the fold `Run`.
- The `-disable-auto-stick` flag has no modelled effect (see above).
- Window and workspace ids are Go `uint64` values. The model only compares them, so no wrap-around arises.

=== FILE: base.dfy ===
/**
 Shared vocabulary of the model: the 64-bit identifiers the compositor hands
 out, and the two small wrapper types used for optional values and errors.
 */
module Base {

  /** Go's `uint64`. Identifiers are compared, never computed with. */
  type u64 = x: int | 0 <= x < 0x1_0000_0000_0000_0000

  type WindowId = u64
  type WorkspaceId = u64

  /** A value that may be absent, such as a window's workspace (a nil `*uint64`). */
  datatype Option<+T> = None | Some(value: T)

  /** The outcome of an operation that can fail with an error of type `E`. */
  datatype Result<+T, +E> = Ok(value: T) | Err(error: E)
}

=== FILE: commands.dfy ===
/**
 The control commands a one-shot client sends to the daemon over the control
 socket, and the client-side validation that precedes sending one.
 */
module Commands {
  import opened Base

  /** The three control actions the daemon understands. */
  datatype Action = SetSticky | UnsetSticky | ToggleSticky

  /** The wire name of an action, as the `action` field of a command carries it. */
  function ActionName(a: Action): string
  {
    match a
    case SetSticky => "set_sticky"
    case UnsetSticky => "unset_sticky"
    case ToggleSticky => "toggle_sticky"
  }

  /** Recognises an action name; every other string is not an action. */
  function ParseAction(name: string): (r: Option<Action>)
    ensures r.Some? ==> ActionName(r.value) == name
    ensures r.None? ==> forall a :: ActionName(a) != name
  {
    if name == "set_sticky" then Some(SetSticky)
    else if name == "unset_sticky" then Some(UnsetSticky)
    else if name == "toggle_sticky" then Some(ToggleSticky)
    else None
  }

  /** Every action survives the trip through its wire name. */
  lemma ParseActionName(a: Action)
    ensures ParseAction(ActionName(a)) == Some(a)
  {
  }

  /** The decoded `{action, window_id}` object of the control socket. */
  datatype Command = Command(action: string, window: WindowId)

  datatype SendError =
    | InvalidCommand(name: string)
    | NoFocusedWindow
    | SendFailed

  /**
   `sendCommand`: validates the action name before anything else, then asks
   for the focused window, then sends the command. `focused` is what the
   focused-window lookup returned (`None` on failure) and `delivered` whether
   writing to the control socket succeeded; both are outside this model.
   */
  function SendCommand(name: string, focused: Option<WindowId>, delivered: bool): (r: Result<Command, SendError>)
    ensures ParseAction(name).None? ==> r == Err(InvalidCommand(name))
    ensures ParseAction(name).Some? && focused.None? ==> r == Err(NoFocusedWindow)
    ensures r.Ok? <==> ParseAction(name).Some? && focused.Some? && delivered
    ensures r.Ok? ==> r.value == Command(name, focused.value)
  {
    if ParseAction(name).None? then Err(InvalidCommand(name))
    else if focused.None? then Err(NoFocusedWindow)
    else if !delivered then Err(SendFailed)
    else Ok(Command(name, focused.value))
  }
}

=== FILE: daemon.dfy ===
/**
 The daemon's event loop as a pure state machine. Each compositor event or
 control command is one `Step` over the window state store and the two
 topology tables; a workspace activation also yields the moves to request.
 */
module Daemon {
  import opened Base
  import opened Tables
  import opened Patterns
  import opened Windows
  import opened Commands

  /** A window as the compositor reports it. */
  datatype Window = Window(id: WindowId, isFloating: bool, appId: string, title: string, workspace: Option<WorkspaceId>)

  /** A workspace and the output (monitor) it lives on. */
  datatype Workspace = Workspace(id: WorkspaceId, output: string)

  /** The decoded compositor events; every other kind is ignored. */
  datatype Event =
    | WorkspaceActivated(activated: WorkspaceId)
    | WorkspacesChanged(workspaces: seq<Workspace>)
    | WindowsChanged(windows: seq<Window>)
    | WindowClosed(closed: WindowId)
    | WindowOpenedOrChanged(changed: Window)
    | OtherEvent

  /** One input of the loop: a compositor event or a control command. */
  datatype Input = FromCompositor(event: Event) | FromControl(command: Command)

  /**
   The daemon's configuration: `-allow-moving-to-foreign-monitors`, the
   `-app-id` and `-title` filter fragments, and the regular-expression engine.
   */
  datatype Config = Config(allowForeignMonitors: bool, appIds: seq<string>, titles: seq<string>, engine: Engine)

  /** The window state store plus `workspacesMonitorMap` and `windowsMonitorMap`. */
  datatype State = State(windows: Manager, workspaceMonitor: map<WorkspaceId, string>, windowMonitor: map<WindowId, string>)

  /** A request to the compositor: move `window` to `workspace`. */
  datatype Move = Move(window: WindowId, workspace: WorkspaceId)

  datatype StepResult = StepResult(state: State, moves: set<Move>)

  /** The state at startup: nothing known. */
  function Init(): State
  {
    State(New(), map[], map[])
  }

  /**
   A window takes part in auto-stickiness when it is floating, sits on a
   workspace, and both its app-id and its title match the combined filters.
   */
  function Eligible(cfg: Config, w: Window): (e: bool)
    ensures e ==> w.isFloating && w.workspace.Some?
    ensures |cfg.appIds| == 0 && |cfg.titles| == 0 ==> (e <==> w.isFloating && w.workspace.Some?)
  {
    && w.isFloating
    && w.workspace.Some?
    && Matches(cfg.engine, Combine(cfg.appIds), w.appId)
    && Matches(cfg.engine, Combine(cfg.titles), w.title)
  }

  /** Every filter fragment is a self-contained pattern that sets no flag at top level. */
  predicate WellFormedFilters(cfg: Config)
  {
    && (forall i | 0 <= i < |cfg.appIds| :: Separable(cfg.appIds[i]))
    && (forall i | 0 <= i < |cfg.titles| :: Separable(cfg.titles[i]))
  }

  /** AND between the two filter categories, OR within each, an empty category accepting all. */
  lemma EligibleMeansBothFiltersAccept(cfg: Config, w: Window)
    requires WellFormedFilters(cfg)
    ensures Eligible(cfg, w) <==>
      && w.isFloating
      && w.workspace.Some?
      && FilterAccepts(cfg.engine, cfg.appIds, w.appId)
      && FilterAccepts(cfg.engine, cfg.titles, w.title)
  {
    CombinedMatches(cfg.engine, cfg.appIds, w.appId);
    CombinedMatches(cfg.engine, cfg.titles, w.title);
  }

  /** The foreign-monitor guard: may `w` be moved to workspace `ws`? */
  predicate MayMove(cfg: Config, st: State, w: WindowId, ws: WorkspaceId)
  {
    cfg.allowForeignMonitors || Read(st.windowMonitor, w) == Read(st.workspaceMonitor, ws)
  }

  /**
   `WorkspaceActivated`: a move to `ws` for every floating sticky window,
   unless foreign monitors are disallowed and the window's recorded output
   differs from the workspace's (a missing entry reads as `""`).
   */
  function OnWorkspaceActivated(cfg: Config, st: State, ws: WorkspaceId): (r: set<Move>)
    ensures forall mv :: mv in r <==>
      && mv.workspace == ws
      && mv.window in st.windows.floating
      && IsSticky(st.windows, mv.window)
      && (cfg.allowForeignMonitors || Read(st.windowMonitor, mv.window) == Read(st.workspaceMonitor, ws))
  {
    set w | w in GetSticky(st.windows) && MayMove(cfg, st, w, ws) :: Move(w, ws)
  }

  /**
   The loop body for `WorkspaceActivated` with the compositor in the loop:
   `gateway(mv)` says whether the compositor accepted the move. Windows are
   visited in an unspecified order; a refused window is skipped (and logged),
   a failed move is logged, and neither stops the remaining moves.
   */
  method ActivateWorkspace(cfg: Config, st: State, ws: WorkspaceId, gateway: Move -> bool)
    returns (attempted: seq<Move>, skipped: seq<WindowId>, failed: seq<Move>)
    ensures forall mv :: mv in attempted <==> mv in OnWorkspaceActivated(cfg, st, ws)
    ensures forall i, j | 0 <= i < j < |attempted| :: attempted[i] != attempted[j]
    ensures forall w :: w in skipped <==> w in GetSticky(st.windows) && !MayMove(cfg, st, w, ws)
    ensures forall mv :: mv in failed <==> mv in attempted && !gateway(mv)
  {
    var sticky := GetSticky(st.windows);
    var todo := sticky;
    attempted, skipped, failed := [], [], [];
    while todo != {}
      invariant todo <= sticky
      invariant forall mv :: mv in attempted <==> mv.workspace == ws && mv.window in sticky - todo && MayMove(cfg, st, mv.window, ws)
      invariant forall i, j | 0 <= i < j < |attempted| :: attempted[i] != attempted[j]
      invariant forall w :: w in skipped <==> w in sticky - todo && !MayMove(cfg, st, w, ws)
      invariant forall mv :: mv in failed <==> mv in attempted && !gateway(mv)
      decreases todo
    {
      var w :| w in todo;
      todo := todo - {w};
      if !MayMove(cfg, st, w, ws) {
        skipped := skipped + [w];
      } else {
        var mv := Move(w, ws);
        assert mv !in attempted;
        attempted := attempted + [mv];
        if !gateway(mv) {
          failed := failed + [mv];
        }
      }
    }
  }

  /**
   `WorkspacesChanged`: the workspace table is rebuilt from the list alone;
   a later entry for the same workspace wins. Nothing else changes.
   */
  function OnWorkspacesChanged(st: State, list: seq<Workspace>): (r: State)
    ensures r.windows == st.windows && r.windowMonitor == st.windowMonitor
    ensures r.workspaceMonitor.Keys == set i | 0 <= i < |list| :: list[i].id
    ensures forall i | 0 <= i < |list| && (forall j | i < j < |list| :: list[j].id != list[i].id) ::
      r.workspaceMonitor[list[i].id] == list[i].output
  {
    var pairs := seq(|list|, i requires 0 <= i < |list| => (list[i].id, list[i].output));
    var table := LastWins(pairs);
    assert forall i | 0 <= i < |list| :: pairs[i] == (list[i].id, list[i].output);
    assert KeysOf(pairs) == set i | 0 <= i < |list| :: list[i].id;
    forall i | 0 <= i < |list| && (forall j | i < j < |list| :: list[j].id != list[i].id)
      ensures table[list[i].id] == list[i].output
    {
      assert LastOccurrence(pairs, i);
      LastWinsValue(pairs, i);
    }
    st.(workspaceMonitor := table)
  }

  /** The ids of the entries of `wins` that `keep` selects. */
  function SelectedIds(keep: Window -> bool, wins: seq<Window>): set<WindowId>
  {
    set i | 0 <= i < |wins| && keep(wins[i]) :: wins[i].id
  }

  /** Position `i` is the last entry of `wins` that `keep` selects for its window. */
  predicate LastSelected(keep: Window -> bool, wins: seq<Window>, i: int)
    requires 0 <= i < |wins|
  {
    forall j | i < j < |wins| && keep(wins[j]) :: wins[j].id != wins[i].id
  }

  lemma SelectedIdsSnoc(keep: Window -> bool, wins: seq<Window>)
    requires |wins| > 0
    ensures var w := wins[|wins| - 1];
      SelectedIds(keep, wins) == SelectedIds(keep, wins[..|wins| - 1]) + (if keep(w) then {w.id} else {})
  {
  }

  /**
   The floating half of the `WindowsChanged` loop: every window `keep`
   selects, in order, is marked floating in `m`.
   */
  function FloatSelected(keep: Window -> bool, m: Manager, wins: seq<Window>): (r: Manager)
    ensures r.overrides == m.overrides
    ensures r.floating == m.floating + SelectedIds(keep, wins)
    decreases |wins|
  {
    if |wins| == 0 then m
    else
      var w := wins[|wins| - 1];
      var prev := FloatSelected(keep, m, wins[..|wins| - 1]);
      SelectedIdsSnoc(keep, wins);
      if keep(w) then SetFloating(prev, w.id) else prev
  }

  /**
   The binding half of the `WindowsChanged` loop: starting from an empty
   table, every selected window in order is bound to the output of its
   workspace (`""` when the workspace is unknown).
   */
  function BindSelected(keep: Window -> bool, workspaces: map<WorkspaceId, string>, wins: seq<Window>): (r: map<WindowId, string>)
    requires forall w | keep(w) :: w.workspace.Some?
    ensures r.Keys == SelectedIds(keep, wins)
    decreases |wins|
  {
    if |wins| == 0 then map[]
    else
      var w := wins[|wins| - 1];
      var prev := BindSelected(keep, workspaces, wins[..|wins| - 1]);
      SelectedIdsSnoc(keep, wins);
      if keep(w) then prev[w.id := Read(workspaces, w.workspace.value)] else prev
  }

  /**
   A selected window is bound to the output of the workspace named by its
   last selected entry.
   */
  lemma {:induction false} BindSelectedLastWins(keep: Window -> bool, workspaces: map<WorkspaceId, string>, wins: seq<Window>, i: int)
    requires forall w | keep(w) :: w.workspace.Some?
    requires 0 <= i < |wins| && keep(wins[i]) && LastSelected(keep, wins, i)
    ensures var table := BindSelected(keep, workspaces, wins);
      wins[i].id in table && table[wins[i].id] == Read(workspaces, wins[i].workspace.value)
    decreases |wins|
  {
    var n := |wins| - 1;
    var init := wins[..n];
    var w := wins[n];
    if i < n {
      assert init[i] == wins[i];
      assert keep(w) ==> w.id != wins[i].id;
      assert LastSelected(keep, init, i) by {
        forall j | i < j < |init| && keep(init[j]) ensures init[j].id != init[i].id {
          assert init[j] == wins[j];
        }
      }
      BindSelectedLastWins(keep, workspaces, init, i);
    }
  }

  /** The windows of `wins` that are eligible. */
  function EligibleIds(cfg: Config, wins: seq<Window>): set<WindowId>
  {
    set i | 0 <= i < |wins| && Eligible(cfg, wins[i]) :: wins[i].id
  }

  /** Position `i` is the last eligible entry of `wins` for its window. */
  predicate LastEligible(cfg: Config, wins: seq<Window>, i: int)
    requires 0 <= i < |wins|
  {
    forall j | i < j < |wins| && Eligible(cfg, wins[j]) :: wins[j].id != wins[i].id
  }

  /**
   `WindowsChanged`: the floating set becomes exactly the eligible windows of
   the list, the window table holds exactly those windows bound to their
   workspace's output (the last entry for a window wins), overrides and the
   workspace table are untouched.
   */
  function OnWindowsChanged(cfg: Config, st: State, wins: seq<Window>): (r: State)
    ensures r.windows.overrides == st.windows.overrides
    ensures r.workspaceMonitor == st.workspaceMonitor
    ensures r.windows.floating == EligibleIds(cfg, wins)
    ensures r.windowMonitor.Keys == EligibleIds(cfg, wins)
    ensures forall i | 0 <= i < |wins| && Eligible(cfg, wins[i]) && LastEligible(cfg, wins, i) ::
      r.windowMonitor[wins[i].id] == Read(st.workspaceMonitor, wins[i].workspace.value)
    ensures forall id :: id in GetSticky(r.windows) <==>
      id in EligibleIds(cfg, wins) && (id !in st.windows.overrides || st.windows.overrides[id])
  {
    var keep := w => Eligible(cfg, w);
    var windows := FloatSelected(keep, ResetFloating(st.windows), wins);
    var table := BindSelected(keep, st.workspaceMonitor, wins);
    assert SelectedIds(keep, wins) == EligibleIds(cfg, wins);
    forall i | 0 <= i < |wins| && Eligible(cfg, wins[i]) && LastEligible(cfg, wins, i)
      ensures table[wins[i].id] == Read(st.workspaceMonitor, wins[i].workspace.value)
    {
      assert LastSelected(keep, wins, i);
      BindSelectedLastWins(keep, st.workspaceMonitor, wins, i);
    }
    State(windows, st.workspaceMonitor, table)
  }

  /** `WindowClosed`: only the window state store forgets the window. */
  function OnWindowClosed(st: State, id: WindowId): (r: State)
    ensures r.workspaceMonitor == st.workspaceMonitor && r.windowMonitor == st.windowMonitor
    ensures !IsSticky(r.windows, id) && id !in GetSticky(r.windows)
    ensures id !in r.windows.floating && id !in r.windows.overrides
    ensures forall w | w != id ::
      && IsSticky(r.windows, w) == IsSticky(st.windows, w)
      && (w in GetSticky(r.windows) <==> w in GetSticky(st.windows))
      && (w in r.windows.floating <==> w in st.windows.floating)
      && (w in r.windows.overrides <==> w in st.windows.overrides)
      && (w in st.windows.overrides ==> r.windows.overrides[w] == st.windows.overrides[w])
  {
    st.(windows := Remove(st.windows, id))
  }

  /**
   `WindowOpenedOrChanged`: an eligible window is marked floating and rebound
   to its workspace's output; a window that is no longer floating is
   forgotten, override included; a floating window that is not eligible
   (filtered out, or on no workspace) leaves the state as it was.
   */
  function OnWindowOpenedOrChanged(cfg: Config, st: State, win: Window): (r: State)
    ensures Eligible(cfg, win) ==>
      && win.id in r.windows.floating
      && r.windows.overrides == st.windows.overrides
      && IsSticky(r.windows, win.id) == (win.id !in st.windows.overrides || st.windows.overrides[win.id])
      && r.windowMonitor.Keys == st.windowMonitor.Keys + {win.id}
      && r.windowMonitor[win.id] == Read(st.workspaceMonitor, win.workspace.value)
    ensures !win.isFloating ==>
      && !IsSticky(r.windows, win.id)
      && win.id !in r.windows.floating && win.id !in r.windows.overrides
      && r.windowMonitor == st.windowMonitor
    ensures win.isFloating && !Eligible(cfg, win) ==> r == st
    ensures r.workspaceMonitor == st.workspaceMonitor
    ensures forall w | w != win.id ::
      && IsSticky(r.windows, w) == IsSticky(st.windows, w)
      && (w in r.windows.floating <==> w in st.windows.floating)
      && (w in r.windows.overrides <==> w in st.windows.overrides)
      && (w in st.windows.overrides ==> r.windows.overrides[w] == st.windows.overrides[w])
      && (w in r.windowMonitor <==> w in st.windowMonitor)
      && (w in st.windowMonitor ==> r.windowMonitor[w] == st.windowMonitor[w])
  {
    if Eligible(cfg, win) then
      State(SetFloating(st.windows, win.id), st.workspaceMonitor,
            st.windowMonitor[win.id := Read(st.workspaceMonitor, win.workspace.value)])
    else if !win.isFloating then
      st.(windows := Remove(st.windows, win.id))
    else st
  }

  /**
   A control command: `current` is read first, then `set_sticky`,
   `unset_sticky` or `toggle_sticky` asks for `true`, `false` or `!current`;
   any other action changes nothing. Only the named window can change, and
   the floating set never does.
   */
  function OnCommand(m: Manager, cmd: Command): (r: Manager)
    ensures ParseAction(cmd.action) == Some(SetSticky) ==> IsSticky(r, cmd.window)
    ensures ParseAction(cmd.action) == Some(UnsetSticky) ==> !IsSticky(r, cmd.window)
    ensures ParseAction(cmd.action) == Some(ToggleSticky) ==> IsSticky(r, cmd.window) == !IsSticky(m, cmd.window)
    ensures ParseAction(cmd.action).None? ==> r == m
    ensures r.floating == m.floating
    ensures IsSticky(r, cmd.window) == IsSticky(m, cmd.window) ==> r == m
    ensures IsSticky(r, cmd.window) != IsSticky(m, cmd.window) ==>
      cmd.window in r.overrides && r.overrides[cmd.window] == IsSticky(r, cmd.window)
    ensures forall w | w != cmd.window ::
      && IsSticky(r, w) == IsSticky(m, w)
      && (w in r.overrides <==> w in m.overrides)
      && (w in m.overrides ==> r.overrides[w] == m.overrides[w])
  {
    var current := IsSticky(m, cmd.window);
    match ParseAction(cmd.action)
    case Some(SetSticky) => SetManual(m, cmd.window, true)
    case Some(UnsetSticky) => SetManual(m, cmd.window, false)
    case Some(ToggleSticky) => SetManual(m, cmd.window, !current)
    case None => m
  }

  /** Every floating window has an entry in the window table. */
  predicate FloatingAreBound(st: State)
  {
    st.windows.floating <= st.windowMonitor.Keys
  }

  /**
   One iteration of the loop. Only a workspace activation requests moves, and
   it changes no state; every step keeps each floating window bound to an output.
   */
  function Step(cfg: Config, st: State, input: Input): (r: StepResult)
    ensures (input.FromCompositor? && input.event.WorkspaceActivated?) ==>
      r.state == st && r.moves == OnWorkspaceActivated(cfg, st, input.event.activated)
    ensures !(input.FromCompositor? && input.event.WorkspaceActivated?) ==> r.moves == {}
    ensures input.FromControl? ==>
      && r.state.workspaceMonitor == st.workspaceMonitor
      && r.state.windowMonitor == st.windowMonitor
      && r.state.windows.floating == st.windows.floating
    ensures FloatingAreBound(st) ==> FloatingAreBound(r.state)
  {
    match input
    case FromControl(cmd) => StepResult(st.(windows := OnCommand(st.windows, cmd)), {})
    case FromCompositor(e) =>
      match e
      case WorkspaceActivated(ws) => StepResult(st, OnWorkspaceActivated(cfg, st, ws))
      case WorkspacesChanged(list) => StepResult(OnWorkspacesChanged(st, list), {})
      case WindowsChanged(wins) => StepResult(OnWindowsChanged(cfg, st, wins), {})
      case WindowClosed(id) => StepResult(OnWindowClosed(st, id), {})
      case WindowOpenedOrChanged(win) => StepResult(OnWindowOpenedOrChanged(cfg, st, win), {})
      case OtherEvent => StepResult(st, {})
  }

  /**
   The loop over a sequence of inputs, processed one at a time in order:
   the final state and, per input, the moves it requested.
   */
  function Run(cfg: Config, st: State, inputs: seq<Input>): (r: (State, seq<set<Move>>))
    ensures |r.1| == |inputs|
    ensures FloatingAreBound(st) ==> FloatingAreBound(r.0)
    ensures forall i | 0 <= i < |inputs| && r.1[i] != {} ::
      inputs[i].FromCompositor? && inputs[i].event.WorkspaceActivated?
    decreases |inputs|
  {
    if |inputs| == 0 then (st, [])
    else
      var first := Step(cfg, st, inputs[0]);
      var rest := Run(cfg, first.state, inputs[1..]);
      assert forall i | 1 <= i < |inputs| :: inputs[i] == inputs[1..][i - 1];
      (rest.0, [first.moves] + rest.1)
  }

  /**
   `Run` handles its first input with `Step` and the rest from the state that
   step leaves: inputs are processed one at a time, in order.
   */
  lemma RunCons(cfg: Config, st: State, first: Input, rest: seq<Input>)
    ensures var step := Step(cfg, st, first);
      && Run(cfg, st, [first] + rest).0 == Run(cfg, step.state, rest).0
      && Run(cfg, st, [first] + rest).1 == [step.moves] + Run(cfg, step.state, rest).1
  {
  }

  lemma InitIsEmpty(id: WindowId)
    ensures FloatingAreBound(Init())
    ensures !IsSticky(Init().windows, id)
    ensures GetSticky(Init().windows) == {}
  {
  }

  /** Two toggles restore the original stickiness of the window. */
  lemma ToggleTwice(m: Manager, id: WindowId)
    ensures IsSticky(OnCommand(OnCommand(m, Command("toggle_sticky", id)), Command("toggle_sticky", id)), id)
        == IsSticky(m, id)
  {
  }

  /**
   Every command the client lets through is one the daemon acts on: the
   window's stickiness afterwards is what the action asked for.
   */
  lemma SentCommandsTakeEffect(name: string, focused: Option<WindowId>, m: Manager)
    requires SendCommand(name, focused, true).Ok?
    ensures var cmd := SendCommand(name, focused, true).value;
      && cmd.window == focused.value
      && IsSticky(OnCommand(m, cmd), cmd.window) ==
         (match ParseAction(name).value
          case SetSticky => true
          case UnsetSticky => false
          case ToggleSticky => !IsSticky(m, cmd.window))
  {
  }
}

=== FILE: patterns.dfy ===
/**
 Combining the user's filter fragments (`-app-id`, `-title`) into one regular
 expression, and what matching that expression means.

 The regular-expression engine itself stays abstract. What is modelled is the
 top level of a pattern: the `|` characters that separate alternatives (those
 not escaped, not inside a group and not inside a bracket class). A pattern
 matches a string when one of its top-level alternatives does; whether a
 single non-empty alternative matches is the `Engine`'s business, and an empty
 alternative matches every string (at position 0).
 */
module Patterns {

  /** The abstract matcher: does the single alternative `branch` match somewhere in `s`? */
  type Engine = (string, string) -> bool

  /** Where a left-to-right reader of a pattern stands. */
  datatype ScanState = ScanState(depth: nat, inClass: bool, escaped: bool)

  /** Outside every group and class, not after a backslash. */
  const Neutral: ScanState := ScanState(0, false, false)

  function Next(st: ScanState, c: char): ScanState
  {
    if st.escaped then st.(escaped := false)
    else if c == '\\' then st.(escaped := true)
    else if st.inClass then (if c == ']' then st.(inClass := false) else st)
    else if c == '[' then st.(inClass := true)
    else if c == '(' then st.(depth := st.depth + 1)
    else if c == ')' && st.depth > 0 then st.(depth := st.depth - 1)
    else st
  }

  /** The state after reading `p` from `st`. */
  function Scan(p: string, st: ScanState): ScanState
    decreases |p|
  {
    if |p| == 0 then st else Scan(p[1..], Next(st, p[0]))
  }

  /** Reading `p` closes every group, class and escape it opens. */
  predicate Balanced(p: string)
  {
    Scan(p, Neutral) == Neutral
  }

  /** A flag letter of Go's regular-expression syntax, or the `-` that clears the flags after it. */
  predicate IsFlag(c: char)
  {
    c == 'i' || c == 'm' || c == 's' || c == 'U' || c == '-'
  }

  /** `q` is a run of flag letters closed by `)`: what follows the `(?` of a flag group such as `(?i)`. */
  predicate FlagsThenClose(q: string)
    decreases |q|
  {
    |q| > 0 && (q[0] == ')' || (IsFlag(q[0]) && FlagsThenClose(q[1..])))
  }

  /** Reading `p` from `st`, no flag group starts at top level. */
  predicate NoTopLevelFlags(p: string, st: ScanState)
    decreases |p|
  {
    || |p| == 0
    || (&& !(st == Neutral && |p| >= 2 && p[0] == '(' && p[1] == '?' && FlagsThenClose(p[2..]))
        && NoTopLevelFlags(p[1..], Next(st, p[0])))
  }

  /**
   A fragment whose top-level alternatives can be judged one at a time: it
   closes every group, class and escape it opens, and it sets no flag at top
   level. A top-level flag group such as `(?i)` stays in force to the end of
   the whole pattern, past every later `|`, so it would reach into the
   alternatives that follow it. A flag group inside a group, or a scoped one
   such as `(?i:foo)`, ends with its group.
   */
  predicate Separable(p: string)
  {
    Balanced(p) && NoTopLevelFlags(p, Neutral)
  }

  /** A `|` read at top level separates two alternatives. */
  predicate IsSeparator(st: ScanState, c: char)
  {
    st == Neutral && c == '|'
  }

  /**
   Cuts `p` at its top-level separators; `cur` is the alternative read so far
   and `st` the reader's state.
   */
  function Split(p: string, st: ScanState, cur: string): (r: seq<string>)
    ensures |r| >= 1
    decreases |p|
  {
    if |p| == 0 then [cur]
    else if IsSeparator(st, p[0]) then [cur] + Split(p[1..], Neutral, [])
    else Split(p[1..], Next(st, p[0]), cur + [p[0]])
  }

  /** The top-level alternatives of a pattern, left to right. */
  function Alternatives(p: string): seq<string>
  {
    Split(p, Neutral, [])
  }

  /**
   `CombinePatterns`: the fragments joined by `|`, with no escaping and no
   grouping. The result starts with the first fragment; no fragment at all
   gives the empty pattern.
   */
  function Combine(fragments: seq<string>): (r: string)
    ensures |fragments| == 0 ==> r == ""
    ensures |fragments| > 0 ==> fragments[0] <= r
    decreases |fragments|
  {
    if |fragments| == 0 then []
    else if |fragments| == 1 then fragments[0]
    else
      assert fragments[1..][|fragments| - 2] == fragments[|fragments| - 1];
      fragments[0] + "|" + Combine(fragments[1..])
  }

  /** Adding a fragment at the end adds one separator and that fragment, and nothing else. */
  lemma {:induction false} CombineSnoc(fragments: seq<string>, last: string)
    requires |fragments| > 0
    ensures Combine(fragments + [last]) == Combine(fragments) + "|" + last
    decreases |fragments|
  {
    var all := fragments + [last];
    assert all[0] == fragments[0];
    if |fragments| == 1 {
      assert all[1..] == [last];
    } else {
      assert all[1..] == fragments[1..] + [last];
      CombineSnoc(fragments[1..], last);
    }
  }

  /** The alternatives of every fragment, in order. */
  function AlternativesOfAll(fragments: seq<string>): seq<string>
    decreases |fragments|
  {
    if |fragments| == 0 then [] else Alternatives(fragments[0]) + AlternativesOfAll(fragments[1..])
  }

  predicate BranchMatches(engine: Engine, branch: string, s: string)
  {
    |branch| == 0 || engine(branch, s)
  }

  /** The alternatives tried left to right: true as soon as one matches. */
  function AnyBranch(engine: Engine, branches: seq<string>, s: string): (b: bool)
    ensures b <==> exists i :: 0 <= i < |branches| && BranchMatches(engine, branches[i], s)
    decreases |branches|
  {
    if |branches| == 0 then false
    else
      assert forall i | 1 <= i < |branches| :: branches[i] == branches[1..][i - 1];
      BranchMatches(engine, branches[0], s) || AnyBranch(engine, branches[1..], s)
  }

  /**
   `MatchString` on a pattern without top-level flag groups: the pattern
   matches `s` when one of its top-level alternatives does, and the empty
   pattern matches every string.
   */
  function Matches(engine: Engine, pattern: string, s: string): (m: bool)
    ensures m <==> exists i :: 0 <= i < |Alternatives(pattern)| && BranchMatches(engine, Alternatives(pattern)[i], s)
    ensures |pattern| == 0 ==> m
  {
    assert Alternatives("") == [""];
    AnyBranch(engine, Alternatives(pattern), s)
  }

  /**
   What a filter list is meant to accept: everything when the list is empty,
   otherwise the strings some fragment matches.
   */
  predicate FilterAccepts(engine: Engine, fragments: seq<string>, s: string)
  {
    |fragments| == 0 || exists i :: 0 <= i < |fragments| && Matches(engine, fragments[i], s)
  }

  /**
   A separator after a fragment that leaves the reader at top level cuts
   there: the alternatives of `f + "|" + rest` are those of `f` followed by
   those of `rest`.
   */
  lemma {:induction false} SplitAtSeparator(f: string, rest: string, st: ScanState, cur: string)
    requires Scan(f, st) == Neutral
    ensures Split(f + "|" + rest, st, cur) == Split(f, st, cur) + Split(rest, Neutral, [])
    decreases |f|
  {
    var p := f + "|" + rest;
    if |f| == 0 {
      assert p == "|" + rest;
      assert p[1..] == rest;
    } else {
      assert p[0] == f[0];
      assert p[1..] == f[1..] + "|" + rest;
      if IsSeparator(st, f[0]) {
        SplitAtSeparator(f[1..], rest, Neutral, []);
      } else {
        SplitAtSeparator(f[1..], rest, Next(st, f[0]), cur + [f[0]]);
      }
    }
  }

  /**
   Joining balanced fragments adds alternatives at top level: the combined
   pattern's alternatives are all the fragments' alternatives, in order, and
   a fragment that itself contains `|` contributes several.
   */
  lemma {:induction false} AlternativesOfCombine(fragments: seq<string>)
    requires |fragments| > 0
    requires forall i | 0 <= i < |fragments| :: Balanced(fragments[i])
    ensures Alternatives(Combine(fragments)) == AlternativesOfAll(fragments)
    decreases |fragments|
  {
    if |fragments| == 1 {
      assert AlternativesOfAll(fragments[1..]) == [];
    } else {
      AlternativesOfCombine(fragments[1..]);
      SplitAtSeparator(fragments[0], Combine(fragments[1..]), Neutral, []);
    }
  }

  /** Splitting and re-joining gives back what was read: `cur + p`. */
  lemma {:induction false} CombineSplit(p: string, st: ScanState, cur: string)
    ensures Combine(Split(p, st, cur)) == cur + p
    decreases |p|
  {
    if |p| == 0 {
    } else if IsSeparator(st, p[0]) {
      var tail := Split(p[1..], Neutral, []);
      CombineSplit(p[1..], Neutral, []);
      var parts := [cur] + tail;
      assert parts[1..] == tail;
      assert Combine(parts) == cur + "|" + p[1..];
      assert p == "|" + p[1..];
    } else {
      CombineSplit(p[1..], Next(st, p[0]), cur + [p[0]]);
      assert p == [p[0]] + p[1..];
    }
  }

  /** Every pattern is the `|`-join of its own top-level alternatives. */
  lemma CombineAlternatives(p: string)
    ensures Combine(Alternatives(p)) == p
  {
    CombineSplit(p, Neutral, []);
  }

  lemma {:induction false} AnyBranchConcat(engine: Engine, a: seq<string>, b: seq<string>, s: string)
    ensures AnyBranch(engine, a + b, s) <==> AnyBranch(engine, a, s) || AnyBranch(engine, b, s)
    decreases |a|
  {
    if |a| > 0 {
      assert (a + b)[0] == a[0];
      assert (a + b)[1..] == a[1..] + b;
      AnyBranchConcat(engine, a[1..], b, s);
    } else {
      assert a + b == b;
    }
  }

  lemma {:induction false} AnyBranchOfAll(engine: Engine, fragments: seq<string>, s: string)
    ensures AnyBranch(engine, AlternativesOfAll(fragments), s)
        <==> exists i :: 0 <= i < |fragments| && Matches(engine, fragments[i], s)
    decreases |fragments|
  {
    if |fragments| > 0 {
      AnyBranchOfAll(engine, fragments[1..], s);
      AnyBranchConcat(engine, Alternatives(fragments[0]), AlternativesOfAll(fragments[1..]), s);
      if exists i :: 0 <= i < |fragments| && Matches(engine, fragments[i], s) {
        var i :| 0 <= i < |fragments| && Matches(engine, fragments[i], s);
        if i > 0 {
          assert fragments[1..][i - 1] == fragments[i];
        }
      }
      if exists i :: 0 <= i < |fragments[1..]| && Matches(engine, fragments[1..][i], s) {
        var i :| 0 <= i < |fragments[1..]| && Matches(engine, fragments[1..][i], s);
        assert fragments[i + 1] == fragments[1..][i];
      }
    }
  }

  /**
   The combined filter accepts exactly what the fragment list is meant to
   accept: the OR of the fragments, and everything for an empty list.
   */
  lemma CombinedMatches(engine: Engine, fragments: seq<string>, s: string)
    requires forall i | 0 <= i < |fragments| :: Separable(fragments[i])
    ensures Matches(engine, Combine(fragments), s) <==> FilterAccepts(engine, fragments, s)
  {
    if |fragments| > 0 {
      AlternativesOfCombine(fragments);
      AnyBranchOfAll(engine, fragments, s);
    }
  }

  /** No filter means the empty pattern, which matches every string, `""` included. */
  lemma EmptyCombinationMatchesEverything(engine: Engine, s: string)
    ensures Combine([]) == ""
    ensures Matches(engine, Combine([]), s)
  {
  }

  /** A character with a meaning to the top-level reader. */
  predicate IsStructural(c: char)
  {
    c == '|' || c == '\\' || c == '[' || c == ']' || c == '(' || c == ')'
  }

  /** A text without separators, groups, classes or escapes is one alternative. */
  lemma {:induction false} PlainIsOneAlternative(p: string, cur: string)
    requires forall i | 0 <= i < |p| :: !IsStructural(p[i])
    ensures Scan(p, Neutral) == Neutral
    ensures Split(p, Neutral, cur) == [cur + p]
    decreases |p|
  {
    if |p| > 0 {
      assert !IsSeparator(Neutral, p[0]) && Next(Neutral, p[0]) == Neutral;
      PlainIsOneAlternative(p[1..], cur + [p[0]]);
      assert cur + [p[0]] + p[1..] == cur + p;
    } else {
      assert cur + p == cur;
    }
  }
}

=== FILE: scenarios.dfy ===
/**
 Concrete runs of the model: the end-to-end workspace-follow scenario, and the
 documented behaviour of combined filter patterns.
 */
module Scenarios {
  import opened Base
  import opened Patterns
  import opened Windows
  import opened Commands
  import opened Daemon

  const Topology: seq<Workspace> := [Workspace(10, "DP-1"), Workspace(20, "DP-1"), Workspace(30, "HDMI-1")]
  const Terminal: Window := Window(1, true, "term", "", Some(10))

  lemma TopologyTable(st: State)
    ensures var table := OnWorkspacesChanged(st, Topology).workspaceMonitor;
      && 10 in table && table[10] == "DP-1"
      && 20 in table && table[20] == "DP-1"
      && 30 in table && table[30] == "HDMI-1"
  {
    assert Topology[0].id == 10 && Topology[1].id == 20 && Topology[2].id == 30;
  }

  /**
   With no filters, topology reported first, then a floating terminal on
   workspace 10: activating workspace 20 (same output) moves the terminal
   there; activating workspace 30 (another output) is refused.
   */
  lemma WorkspaceFollowScenario(engine: Engine)
    ensures var cfg := Config(false, [], [], engine);
      var inputs := [
        FromCompositor(WorkspacesChanged(Topology)),
        FromCompositor(WindowsChanged([Terminal])),
        FromCompositor(WorkspaceActivated(20)),
        FromCompositor(WorkspaceActivated(30))];
      Run(cfg, Init(), inputs).1 == [{}, {}, {Move(1, 20)}, {}]
  {
    var cfg := Config(false, [], [], engine);
    var s1 := OnWorkspacesChanged(Init(), Topology);
    TopologyTable(Init());
    assert Eligible(cfg, Terminal);
    var s2 := OnWindowsChanged(cfg, s1, [Terminal]);
    assert EligibleIds(cfg, [Terminal]) == {1};
    assert s2.windowMonitor[1] == "DP-1";
    assert GetSticky(s2.windows) == {1};
    assert OnWorkspaceActivated(cfg, s2, 20) == {Move(1, 20)};
    assert OnWorkspaceActivated(cfg, s2, 30) == {};
    var a30 := FromCompositor(WorkspaceActivated(30));
    RunCons(cfg, s2, a30, []);
    RunCons(cfg, s2, FromCompositor(WorkspaceActivated(20)), [a30]);
    RunCons(cfg, s1, FromCompositor(WindowsChanged([Terminal])), [FromCompositor(WorkspaceActivated(20)), a30]);
    RunCons(cfg, Init(), FromCompositor(WorkspacesChanged(Topology)),
      [FromCompositor(WindowsChanged([Terminal])), FromCompositor(WorkspaceActivated(20)), a30]);
  }

  /**
   The same events with the window reported before the topology: the window
   is bound to `""` (its workspace was unknown), `WorkspacesChanged` does not
   rebind it, and the activation of workspace 20 requests no move.
   */
  lemma StaleBindingScenario(engine: Engine)
    ensures var cfg := Config(false, [], [], engine);
      var inputs := [
        FromCompositor(WindowsChanged([Terminal])),
        FromCompositor(WorkspacesChanged(Topology)),
        FromCompositor(WorkspaceActivated(20))];
      Run(cfg, Init(), inputs).1 == [{}, {}, {}]
  {
    var cfg := Config(false, [], [], engine);
    assert Eligible(cfg, Terminal);
    var s1 := OnWindowsChanged(cfg, Init(), [Terminal]);
    assert EligibleIds(cfg, [Terminal]) == {1};
    assert s1.windowMonitor[1] == "";
    var s2 := OnWorkspacesChanged(s1, Topology);
    TopologyTable(s1);
    assert OnWorkspaceActivated(cfg, s2, 20) == {};
    var a20 := FromCompositor(WorkspaceActivated(20));
    RunCons(cfg, s2, a20, []);
    RunCons(cfg, s1, FromCompositor(WorkspacesChanged(Topology)), [a20]);
    RunCons(cfg, Init(), FromCompositor(WindowsChanged([Terminal])), [FromCompositor(WorkspacesChanged(Topology)), a20]);
  }

  /** Allowing foreign monitors, the activation of workspace 30 does move the window. */
  lemma ForeignMonitorsAllowedScenario(engine: Engine)
    ensures var cfg := Config(true, [], [], engine);
      var inputs := [
        FromCompositor(WorkspacesChanged(Topology)),
        FromCompositor(WindowsChanged([Terminal])),
        FromCompositor(WorkspaceActivated(30))];
      Run(cfg, Init(), inputs).1 == [{}, {}, {Move(1, 30)}]
  {
    var cfg := Config(true, [], [], engine);
    var s1 := OnWorkspacesChanged(Init(), Topology);
    TopologyTable(Init());
    assert Eligible(cfg, Terminal);
    var s2 := OnWindowsChanged(cfg, s1, [Terminal]);
    assert EligibleIds(cfg, [Terminal]) == {1};
    assert GetSticky(s2.windows) == {1};
    assert OnWorkspaceActivated(cfg, s2, 30) == {Move(1, 30)};
    var a30 := FromCompositor(WorkspaceActivated(30));
    RunCons(cfg, s2, a30, []);
    RunCons(cfg, s1, FromCompositor(WindowsChanged([Terminal])), [a30]);
    RunCons(cfg, Init(), FromCompositor(WorkspacesChanged(Topology)), [FromCompositor(WindowsChanged([Terminal])), a30]);
  }

  /**
   A fragment containing `|` adds alternatives at top level: `foo|bar`
   joined with `baz` has the three alternatives `foo`, `bar` and `baz`.
   */
  lemma AlternativesAreNotIsolated(engine: Engine, s: string)
    ensures Combine(["foo|bar", "baz"]) == "foo|bar|baz"
    ensures Alternatives(Combine(["foo|bar", "baz"])) == ["foo", "bar", "baz"]
    ensures Matches(engine, Combine(["foo|bar", "baz"]), s) <==> engine("foo", s) || engine("bar", s) || engine("baz", s)
  {
    PlainAlternatives3("foo", "bar", "baz");
    assert Combine(["foo|bar", "baz"]) == Combine(["foo", "bar", "baz"]);
  }

  /**
   Anchors bind to their own alternative: in `^foo|bar$` joined with `baz`,
   `^` belongs to `foo` and `$` to `bar` only.
   */
  lemma AnchorsBindToTheirAlternative(engine: Engine, s: string)
    ensures Combine(["^foo|bar$", "baz"]) == "^foo|bar$|baz"
    ensures Alternatives(Combine(["^foo|bar$", "baz"])) == ["^foo", "bar$", "baz"]
    ensures Matches(engine, Combine(["^foo|bar$", "baz"]), s) <==> engine("^foo", s) || engine("bar$", s) || engine("baz", s)
  {
    PlainAlternatives3("^foo", "bar$", "baz");
    assert Combine(["^foo|bar$", "baz"]) == Combine(["^foo", "bar$", "baz"]);
  }

  /** A group keeps its inner `|`: `(a|b)c` joined with `d` has two alternatives. */
  lemma GroupsStayWhole()
    ensures Alternatives(Combine(["(a|b)c", "d"])) == ["(a|b)c", "d"]
  {
    GroupIsBalanced();
    GroupIsOneAlternative();
    PlainIsOneAlternative("d", []);
    AlternativesOfCombine(["(a|b)c", "d"]);
    assert ["(a|b)c", "d"][1..] == ["d"] && ["d"][1..] == [];
    assert [] + "d" == "d";
    assert AlternativesOfAll(["d"]) == ["d"];
  }

  lemma GroupIsBalanced()
    ensures Balanced("(a|b)c")
  {
  }

  lemma GroupIsOneAlternative()
    ensures Alternatives("(a|b)c") == ["(a|b)c"]
  {
    var g := "(a|b)c";
    var inGroup := ScanState(1, false, false);
    assert g[1..] == "a|b)c" && g[1..][1..] == "|b)c" && g[1..][1..][1..] == "b)c";
    assert g[1..][1..][1..][1..] == ")c" && g[1..][1..][1..][1..][1..] == "c";
    assert "(" + "a" == "(a" && "(a" + "|" == "(a|" && "(a|" + "b" == "(a|b";
    assert "(a|b" + ")" == "(a|b)" && "(a|b)" + "c" == "(a|b)c";
    assert Split("", Neutral, "(a|b)c") == ["(a|b)c"];
    assert Split("c", Neutral, "(a|b)") == ["(a|b)c"];
    assert Split(")c", inGroup, "(a|b") == ["(a|b)c"];
    assert Split("b)c", inGroup, "(a|") == ["(a|b)c"];
    assert Split("|b)c", inGroup, "(a") == ["(a|b)c"];
    assert Split("a|b)c", inGroup, "(") == ["(a|b)c"];
    assert g[0] == '(' && !IsSeparator(Neutral, g[0]) && Next(Neutral, g[0]) == inGroup;
    assert [] + [g[0]] == "(";
  }

  /** A top-level flag group makes a fragment not separable. */
  lemma TopLevelFlagGroupIsNotSeparable()
    ensures !Separable("(?i)foo")
  {
  }

  /** A scoped flag group ends with its group, so the fragment stays separable. */
  lemma ScopedFlagGroupIsSeparable()
    ensures Separable("(?i:a)")
  {
  }

  /** A flag group inside a group ends with that group. */
  lemma NestedFlagGroupIsSeparable()
    ensures Separable("(a(?i)b)")
  {
  }

  /** `lit` occurs in `s` at position `k`. */
  predicate OccursAt(s: string, lit: string, k: int)
  {
    0 <= k <= |s| - |lit| && s[k..k + |lit|] == lit
  }

  /**
   A reference matcher for one branch made of plain characters, optionally
   anchored by a leading `^` and a trailing `$`: the literal occurs in `s`,
   at the start if `^`, at the end if `$`.
   */
  predicate LiteralMatch(branch: string, s: string)
  {
    var atStart := |branch| > 0 && branch[0] == '^';
    var rest := if atStart then branch[1..] else branch;
    var atEnd := |rest| > 0 && rest[|rest| - 1] == '$';
    var lit := if atEnd then rest[..|rest| - 1] else rest;
    exists k | 0 <= k <= |s| :: OccursAt(s, lit, k) && (!atStart || k == 0) && (!atEnd || k + |lit| == |s|)
  }

  lemma LiteralFactsXxbar()
    ensures LiteralMatch("bar$", "xxbar")
  {
    assert "bar$"[..3] == "bar";
    assert OccursAt("xxbar", "bar", 2) by {
      assert "xxbar"[2..5] == "bar";
    }
  }

  lemma LiteralFactsXxbarxx()
    ensures !LiteralMatch("^foo", "xxbarxx")
    ensures !LiteralMatch("bar$", "xxbarxx")
    ensures !LiteralMatch("baz", "xxbarxx")
  {
    var no := "xxbarxx";
    assert "^foo"[1..] == "foo" && "bar$"[..3] == "bar";
    assert !OccursAt(no, "foo", 0) by {
      assert no[0..3][0] != 'f';
    }
    assert !OccursAt(no, "bar", 4) by {
      assert no[4..7][0] != 'b';
    }
    forall k | 0 <= k <= |no| ensures !OccursAt(no, "baz", k) {
      if k <= |no| - 3 {
        assert no[k..k + 3][2] == no[k + 2] != 'z';
      }
    }
  }

  /**
   With literal branches, `^foo|bar$` joined with `baz` accepts `xxbar`
   (through `bar$`) and refuses `xxbarxx` (`bar` is not at the end).
   */
  lemma AnchorsWithLiteralBranches()
    ensures Matches((b, s) => LiteralMatch(b, s), Combine(["^foo|bar$", "baz"]), "xxbar")
    ensures !Matches((b, s) => LiteralMatch(b, s), Combine(["^foo|bar$", "baz"]), "xxbarxx")
  {
    var engine: Engine := (b, s) => LiteralMatch(b, s);
    AnchorsBindToTheirAlternative(engine, "xxbar");
    AnchorsBindToTheirAlternative(engine, "xxbarxx");
    LiteralFactsXxbar();
    LiteralFactsXxbarxx();
  }

  lemma PlainAlternatives3(a: string, b: string, c: string)
    requires forall i | 0 <= i < |a| :: !IsStructural(a[i])
    requires forall i | 0 <= i < |b| :: !IsStructural(b[i])
    requires forall i | 0 <= i < |c| :: !IsStructural(c[i])
    ensures Alternatives(Combine([a, b, c])) == [a, b, c]
    ensures forall engine: Engine, s: string :: Matches(engine, Combine([a, b, c]), s) <==>
      BranchMatches(engine, a, s) || BranchMatches(engine, b, s) || BranchMatches(engine, c, s)
  {
    PlainIsOneAlternative(a, []);
    PlainIsOneAlternative(b, []);
    PlainIsOneAlternative(c, []);
    assert [] + a == a && [] + b == b && [] + c == c;
    AlternativesOfCombine([a, b, c]);
    assert [a, b, c][1..] == [b, c];
    assert [b, c][1..] == [c];
    assert [c][1..] == [];
    assert AlternativesOfAll([c]) == [c];
    assert AlternativesOfAll([b, c]) == [b, c];
    var abc := [a, b, c];
    assert abc[1..] == [b, c] && abc[1..][1..] == [c] && abc[1..][1..][1..] == [];
    forall engine: Engine, s: string
      ensures Matches(engine, Combine(abc), s) <==>
        BranchMatches(engine, a, s) || BranchMatches(engine, b, s) || BranchMatches(engine, c, s)
    {
      assert AnyBranch(engine, abc[1..][1..][1..], s) == false;
      assert AnyBranch(engine, abc[1..][1..], s) == BranchMatches(engine, c, s);
      assert AnyBranch(engine, abc[1..], s) == (BranchMatches(engine, b, s) || BranchMatches(engine, c, s));
      assert Matches(engine, Combine(abc), s) == AnyBranch(engine, abc, s);
    }
  }
}

=== FILE: tables.dfy ===
/**
 How the daemon reads and builds its lookup tables (Go maps from an id to an
 output name).
 */
module Tables {

  /** Reading a Go `map[K]string`: a missing key yields the zero value `""`. */
  function Read<K>(m: map<K, string>, k: K): (v: string)
    ensures k !in m ==> v == ""
    ensures v != "" ==> k in m && m[k] == v
    ensures k in m ==> v == m[k]
  {
    if k in m then m[k] else ""
  }

  /** Position `i` holds the last pair in `pairs` with its key. */
  predicate LastOccurrence<K(==), V>(pairs: seq<(K, V)>, i: int)
    requires 0 <= i < |pairs|
  {
    forall j | i < j < |pairs| :: pairs[j].0 != pairs[i].0
  }

  /** The keys listed in `pairs`. */
  function KeysOf<K, V>(pairs: seq<(K, V)>): set<K>
  {
    set i | 0 <= i < |pairs| :: pairs[i].0
  }

  lemma KeysOfSnoc<K, V>(pairs: seq<(K, V)>)
    requires |pairs| > 0
    ensures KeysOf(pairs) == KeysOf(pairs[..|pairs| - 1]) + {pairs[|pairs| - 1].0}
  {
  }

  /** Dropping the last pair keeps the earlier last occurrences last. */
  lemma LastOccurrenceSnoc<K, V>(pairs: seq<(K, V)>, i: int)
    requires 0 <= i < |pairs| - 1 && LastOccurrence(pairs, i)
    ensures LastOccurrence(pairs[..|pairs| - 1], i)
    ensures pairs[i].0 != pairs[|pairs| - 1].0
  {
  }

  /**
   The map obtained by assigning `m[k] = v` for every pair in order, starting
   from an empty map: every key listed is present, and a later pair for the
   same key overwrites an earlier one.
   */
  function LastWins<K, V>(pairs: seq<(K, V)>): (r: map<K, V>)
    ensures r.Keys == KeysOf(pairs)
    decreases |pairs|
  {
    if |pairs| == 0 then map[]
    else
      var last := pairs[|pairs| - 1];
      KeysOfSnoc(pairs);
      LastWins(pairs[..|pairs| - 1])[last.0 := last.1]
  }

  /** Each key holds the value of its last pair. */
  lemma {:induction false} LastWinsValue<K, V>(pairs: seq<(K, V)>, i: int)
    requires 0 <= i < |pairs| && LastOccurrence(pairs, i)
    ensures pairs[i].0 in LastWins(pairs) && LastWins(pairs)[pairs[i].0] == pairs[i].1
    decreases |pairs|
  {
    if i < |pairs| - 1 {
      LastOccurrenceSnoc(pairs, i);
      assert pairs[..|pairs| - 1][i] == pairs[i];
      LastWinsValue(pairs[..|pairs| - 1], i);
    }
  }
}

=== FILE: windows_manager.dfy ===
/**
 The window state store (`WindowsManager`): which windows are floating, and
 which carry a manual stickiness override set by the user. Every operation is
 a total function from one manager value to the next.
 */
module Windows {
  import opened Base

  /**
   `floating` is the set of windows the daemon currently treats as floating
   candidates; `overrides` holds the user's explicit sticky/unsticky choices,
   which may also name windows that are not floating.
   */
  datatype Manager = Manager(floating: set<WindowId>, overrides: map<WindowId, bool>)

  /** Effective stickiness: a manual override wins, otherwise floating windows are sticky. */
  function IsSticky(m: Manager, id: WindowId): (sticky: bool)
    ensures id !in m.floating && id !in m.overrides ==> !sticky
    ensures sticky ==> id in m.floating || (id in m.overrides && m.overrides[id])
    ensures id in m.floating && (id !in m.overrides || m.overrides[id]) ==> sticky
  {
    if id in m.overrides then m.overrides[id] else id in m.floating
  }

  /** A fresh manager knows no window: nothing is floating, overridden or sticky. */
  function New(): (m: Manager)
    ensures m.floating == {} && m.overrides == map[]
    ensures forall id :: !IsSticky(m, id)
    ensures GetSticky(m) == {}
  {
    Manager({}, map[])
  }

  /**
   The windows that follow a workspace switch: floating windows whose effective
   stickiness is true. A window sticky only through an override, but not
   floating, is never returned. (The source returns a slice in map order; as a
   set, it has no duplicates and no order.)
   */
  function GetSticky(m: Manager): (r: set<WindowId>)
    ensures r <= m.floating
    ensures forall id :: id in r <==> id in m.floating && IsSticky(m, id)
  {
    set id | id in m.floating && (id !in m.overrides || m.overrides[id])
  }

  /** Marks `id` as floating; overrides are left alone. */
  function SetFloating(m: Manager, id: WindowId): (r: Manager)
    ensures r.overrides == m.overrides
    ensures id in r.floating
    ensures IsSticky(r, id) == (id !in m.overrides || m.overrides[id])
    ensures forall w | w != id :: (w in r.floating <==> w in m.floating) && IsSticky(r, w) == IsSticky(m, w)
  {
    m.(floating := m.floating + {id})
  }

  /** Forgets every floating window but keeps every manual override. */
  function ResetFloating(m: Manager): (r: Manager)
    ensures r.floating == {}
    ensures r.overrides == m.overrides
    ensures GetSticky(r) == {}
    ensures forall id :: IsSticky(r, id) == (id in m.overrides && m.overrides[id])
  {
    m.(floating := {})
  }

  /**
   Records the user's wish `sticky` for `id`, unless the window already has
   that effective stickiness, in which case nothing is written.
   */
  function SetManual(m: Manager, id: WindowId, sticky: bool): (r: Manager)
    ensures IsSticky(r, id) == sticky
    ensures r.floating == m.floating
    ensures sticky == IsSticky(m, id) ==> r == m
    ensures sticky != IsSticky(m, id) ==> id in r.overrides && r.overrides[id] == sticky
    ensures forall w | w != id ::
      && (w in r.overrides <==> w in m.overrides)
      && (w in m.overrides ==> r.overrides[w] == m.overrides[w])
    ensures forall w | w != id :: IsSticky(r, w) == IsSticky(m, w)
  {
    var current := IsSticky(m, id);
    if sticky == current then m
    else m.(overrides := m.overrides[id := sticky])
  }

  /** Purges both the floating flag and the override of `id`. */
  function Remove(m: Manager, id: WindowId): (r: Manager)
    ensures id !in r.floating && id !in r.overrides
    ensures !IsSticky(r, id) && id !in GetSticky(r)
    ensures forall w | w != id ::
      && IsSticky(r, w) == IsSticky(m, w)
      && (w in GetSticky(r) <==> w in GetSticky(m))
      && (w in r.floating <==> w in m.floating)
      && (w in r.overrides <==> w in m.overrides)
      && (w in m.overrides ==> r.overrides[w] == m.overrides[w])
  {
    Manager(m.floating - {id}, m.overrides - {id})
  }

  /** The override, when present, decides alone: the floating set is irrelevant. */
  lemma OverrideWins(m: Manager, id: WindowId, floating: set<WindowId>)
    requires id in m.overrides
    ensures IsSticky(m.(floating := floating), id) == m.overrides[id]
    ensures IsSticky(m, id) == IsSticky(m.(floating := floating), id)
  {
  }

  /** Without an override, stickiness is exactly floating membership. */
  lemma FloatingDecidesWithoutOverride(m: Manager, id: WindowId)
    requires id !in m.overrides
    ensures IsSticky(m, id) <==> id in m.floating
    ensures IsSticky(m, id) <==> id in GetSticky(m)
  {
  }

  lemma SetFloatingIdempotent(m: Manager, id: WindowId)
    ensures SetFloating(SetFloating(m, id), id) == SetFloating(m, id)
  {
  }

  /** Asking twice for the same stickiness has the effect of asking once. */
  lemma SetManualIdempotent(m: Manager, id: WindowId, sticky: bool)
    ensures SetManual(SetManual(m, id, sticky), id, sticky) == SetManual(m, id, sticky)
  {
  }

  /**
   After a full refresh, re-marking a window as floating brings back the
   stickiness its override gave it before: overrides survive `ResetFloating`.
   */
  lemma ResetThenSetFloatingRestores(m: Manager, id: WindowId)
    requires id in m.floating
    ensures IsSticky(SetFloating(ResetFloating(m), id), id) == IsSticky(m, id)
    ensures id in GetSticky(SetFloating(ResetFloating(m), id)) <==> id in GetSticky(m)
  {
  }

  /**
   A manual wish that changed a window's stickiness is recorded as an
   override, so it outlives a full refresh, and re-marking the window as
   floating does not undo it.
   */
  lemma ManualWishSurvivesReset(m: Manager, id: WindowId, sticky: bool)
    requires sticky != IsSticky(m, id)
    ensures IsSticky(ResetFloating(SetManual(m, id, sticky)), id) == sticky
    ensures IsSticky(SetFloating(ResetFloating(SetManual(m, id, sticky)), id), id) == sticky
  {
  }

  /**
   After `Remove`, the window is treated exactly as a never-seen one, whatever
   happens to it next.
   */
  lemma RemoveForgets(m: Manager, id: WindowId)
    ensures IsSticky(Remove(m, id), id) == IsSticky(New(), id)
    ensures IsSticky(SetFloating(Remove(m, id), id), id)
    ensures forall b :: IsSticky(SetManual(Remove(m, id), id, b), id) == b
  {
  }
}
